=== FILE: README.md ===
# Tabs component: child classification and slider bookkeeping

A Dafny model of the logic inside Vuetify's `v-tabs` component
(`packages/vuetify/src/components/VTabs/VTabs.ts`). The component receives
an unlabelled list of children in its default slot and renders a bar of tab
labels, a highlight ("slider") under the active tab, and an optional panel
container. The model covers:

- **Classification** (`TabNodes`, `tab_nodes.dfy`): `parseNodes` sorts each
  child, in one left-to-right pass, into `tab`, `slider`, `items` or `item`
  by the name of its component. Plain nodes, `v-tab` and unknown names go to
  `tab`. The scan is modelled as accumulator recursion mirroring the loop and
  is proved equal to an independent per-role filter (`Bucket`), from which
  the partition, order-preservation and membership laws follow.
- **Render choices** (`TabsLayout`, `tabs_layout.dfy`): `genItems` (explicit
  `v-tabs-items`, one synthesised container for loose `v-tab-item`s, or
  nothing), `genSlider` (nothing when hidden, the caller's sliders, or one
  default slider, inside one wrapper), and which slot children survive into
  the rendered tree.
- **Slider state machine** (`TabSlider`, `tab_slider.dfy`): `sliderLeft`,
  `sliderWidth`, the `$nextTick` queue, the pending `setTimeout` timers with
  their handles, `resizeTimeout`, and the destroyed flag. `callSlider`, its
  deferred measurement, `sliderStyles`, `onResize`, the mount hook, the
  watchers and the event loop (`Tick` flushes the `$nextTick` queue,
  `Fire(id)` runs one pending timer) are step functions over an immutable
  state record. DOM measurements (`scrollWidth`, `offsetLeft`) and the bar's
  `selectedItems` are inputs (`Env`) to each step.

`wrappers.dfy` holds the `Option` type used for JavaScript `null`/`undefined`.

Three behaviours of the code that a reader might expect to be otherwise,
modelled as written:

- Lines 134-143 carry no liveness check: if the bar still yields a selected
  element after teardown, a measurement queued before it positions the
  slider (`TabSlider.MeasurementAfterTeardown`). Only `onResize` consults
  the destroyed flag.
- Nothing clears the pending resize timer on teardown (the component has no
  destroy hook); the timer stays queued and runs `callSlider` when it fires.
- A failed measurement never resets the slider to null; it leaves it as it
  was.

## Model

| member | source | states |
|---|---|---|
| TabNodes.RoleOf | packages/vuetify/src/components/VTabs/VTabs.ts:228-241 | Plain nodes, `v-tab` and unknown names are tabs; a child is a slider, panel container or panel item exactly when its component is named `v-tabs-slider`, `v-tabs-items` or `v-tab-item` |
| TabNodes.Push | packages/vuetify/src/components/VTabs/VTabs.ts:226-241 | One loop iteration appends the child to the bucket of its role and leaves the other three buckets alone |
| TabNodes.Scan | packages/vuetify/src/components/VTabs/VTabs.ts:225-242 | Continuing the scan from any index, with the buckets of the prefix already visited, ends with the reference per-role filters of the whole slot |
| TabNodes.ParseNodes | packages/vuetify/src/components/VTabs/VTabs.ts:217-245 | The four buckets are the per-role filters of the slot; a missing slot yields four empty buckets |
| TabNodes.BucketPositions | packages/vuetify/src/components/VTabs/VTabs.ts:225-241 | Each bucket is the subsequence of the slot at strictly increasing positions, and those positions are exactly the children of that role, so relative input order is kept |
| TabNodes.BucketMembers | packages/vuetify/src/components/VTabs/VTabs.ts:228-241 | A child value is in a bucket exactly when it occurs in the slot and has that bucket's role |
| TabNodes.ClassifiedIsPartition | packages/vuetify/src/components/VTabs/VTabs.ts:218-244 | Bucket sizes add up to the slot length and bucket contents add up to the slot's multiset |
| TabNodes.ParseNodesPartition | packages/vuetify/src/components/VTabs/VTabs.ts:217-245 | The parse is a partition: sizes and contents add up, and every child, by position, is in exactly one bucket, the one of its role |
| TabNodes.ReclassifyBucket | packages/vuetify/src/components/VTabs/VTabs.ts:228-241 | Classifying a bucket again puts all of it back in the same bucket and leaves the other three empty |
| TabSlider.ActiveBox | packages/vuetify/src/components/VTabs/VTabs.ts:136-139 | An element to measure exists exactly when there is a first selected item with an element, and it is that item's element |
| TabSlider.MeasureSlider | packages/vuetify/src/components/VTabs/VTabs.ts:134-143 | Without an active element nothing changes; otherwise width becomes `scrollWidth` and left becomes `offsetLeft`, and nothing else changes |
| TabSlider.MeasureIdempotent | packages/vuetify/src/components/VTabs/VTabs.ts:134-143 | Measuring twice against the same selection is the same as measuring once |
| TabSlider.CallSlider | packages/vuetify/src/components/VTabs/VTabs.ts:131-146 | Answers true exactly when the slider is shown and something is selected; then exactly one measurement is appended to the `$nextTick` queue, otherwise nothing is scheduled; no other state changes |
| TabSlider.Styles | packages/vuetify/src/components/VTabs/VTabs.ts:104-110 | Transition is `none` exactly while `sliderLeft` is null and is left to the stylesheet otherwise; left and width are the stored coordinates |
| TabSlider.ClearTimeout | packages/vuetify/src/components/VTabs/VTabs.ts:214 | Clearing a handle removes exactly the timers with that handle and keeps every other one |
| TabSlider.ClearTimeoutKeepsOrder | packages/vuetify/src/components/VTabs/VTabs.ts:214 | Clearing a handle keeps the remaining timers in increasing handle order |
| TabSlider.OnResize | packages/vuetify/src/components/VTabs/VTabs.ts:211-216 | On a destroyed component nothing changes; otherwise the previous resize timer is removed, one new resize timer with a fresh handle is pending and recorded in `resizeTimeout`, and every other timer stays |
| TabSlider.FireTimer | packages/vuetify/src/components/VTabs/VTabs.ts:214-215 | A cleared or unknown handle does nothing; a pending one leaves the queue, every other timer stays, and `callSlider` runs, which appends one measurement to the queued jobs exactly when the slider is shown and something is selected |
| TabSlider.RunTick | packages/vuetify/src/components/VTabs/VTabs.ts:124-143 | A queued measurement moves the slider onto the active tab's `offsetLeft`/`scrollWidth` and changes nothing else, or nothing at all without an active element; the mount callback arms one mount timer under the next free handle and changes nothing else |
| TabSlider.RunJobs | packages/vuetify/src/components/VTabs/VTabs.ts:124-143 | Running queued callbacks in order leaves the slider as one measurement at flush time would, or unchanged when no measurement was queued; every pending timer stays, and the only new timers are mount timers under fresh handles, one per mount callback |
| TabSlider.FlushTicks | packages/vuetify/src/components/VTabs/VTabs.ts:134-143 | A flush empties the `$nextTick` queue, keeps every pending timer, and collapses any number of queued measurements into one reading the current selection |
| TabSlider.InitialWf | packages/vuetify/src/components/VTabs/VTabs.ts:88-95 | The freshly created state satisfies the reachable-state invariant |
| TabSlider.StepPreservesWf | packages/vuetify/src/components/VTabs/VTabs.ts:113-216 | Every event keeps the invariant: both coordinates set together, handles fresh and increasing, and only the timer named by `resizeTimeout` may be a resize timer |
| TabSlider.RunJobsPreservesWf | packages/vuetify/src/components/VTabs/VTabs.ts:124-143 | Running queued callbacks keeps the invariant |
| TabSlider.Step | packages/vuetify/src/components/VTabs/VTabs.ts:113-128 | Only a `$nextTick` flush moves the slider; teardown is permanent and handles are never reused; mounting queues one mount callback, a watched change queues a measurement exactly when `callSlider` accepts, teardown changes nothing else, a resize on a live component arms the new resize timer, a flush empties the queue keeping every timer, and an unknown handle firing changes nothing |
| TabSlider.MountArmsOneTimer | packages/vuetify/src/components/VTabs/VTabs.ts:124-128 | Mounting with an empty `$nextTick` queue and then flushing arms exactly one mount timer under the next free handle and moves neither the slider nor the resize handle |
| TabSlider.RunPreservesWf | packages/vuetify/src/components/VTabs/VTabs.ts:113-216 | Every run of events keeps the invariant |
| TabSlider.ReachableAtMostOneResizeTimer | packages/vuetify/src/components/VTabs/VTabs.ts:211-216 | In every state reachable from a freshly created component at most one resize timer is pending |
| TabSlider.AtMostOneResizeTimer | packages/vuetify/src/components/VTabs/VTabs.ts:211-216 | In every state satisfying the invariant at most one resize timer is pending |
| TabSlider.ResizeBurst | packages/vuetify/src/components/VTabs/VTabs.ts:211-216 | Any burst of n resize signals on a live component arms n fresh handles, and only the last of them (recorded in `resizeTimeout`) is a pending resize timer; mount timers, slider and `$nextTick` queue are unchanged |
| TabSlider.DestroyedIgnoresResize | packages/vuetify/src/components/VTabs/VTabs.ts:211-212 | Resize signals on a destroyed component change nothing |
| TabSlider.HiddenSliderNeverMeasures | packages/vuetify/src/components/VTabs/VTabs.ts:131-132 | While the slider is hidden no event ever schedules a measurement or moves the slider |
| TabSlider.PositionedStaysPositioned | packages/vuetify/src/components/VTabs/VTabs.ts:104-146 | Once positioned the slider is never reset to null, so the inline `transition` stays unset in every later render |
| TabSlider.TransitionStartsWithFirstMeasurement | packages/vuetify/src/components/VTabs/VTabs.ts:104-110 | Before the first measurement the inline transition is `none`; after it the slider sits at the active element's box and the inline transition is unset, leaving the stylesheet's |
| TabSlider.FireResizeTimer | packages/vuetify/src/components/VTabs/VTabs.ts:131-216 | Firing the pending resize timer queues one measurement and leaves only mount timers pending |
| TabSlider.ResizeBurstMeasuresOnce | packages/vuetify/src/components/VTabs/VTabs.ts:131-216 | A resize burst, the timer firing and the next flush perform exactly one measurement, reading the selection at the flush |
| TabSlider.MeasurementAfterTeardown | packages/vuetify/src/components/VTabs/VTabs.ts:134-143 | With no liveness check in the deferred body, a measurement queued before destruction positions the slider whenever the bar still yields a selected element |
| TabsLayout.GenItems | packages/vuetify/src/components/VTabs/VTabs.ts:179-194 | Explicit containers are returned unchanged whenever there is one; with neither containers nor items there are no panels; otherwise the loose items go into exactly one container |
| TabsLayout.GenSlider | packages/vuetify/src/components/VTabs/VTabs.ts:195-210 | Nothing when hidden; otherwise one wrapper carrying the slider styles around exactly one default slider, or around the caller's sliders unchanged |
| TabsLayout.Render | packages/vuetify/src/components/VTabs/VTabs.ts:248-262 | The bar's labels are the tab bucket; a slider wrapper exists exactly when the slider is shown, carries `sliderStyles` of the current state, and holds the slider bucket, or one default slider when that bucket is empty; the panels are explicit exactly when the slot has a `v-tabs-items` child (and are then those containers), wrapped exactly when it has none but has loose `v-tab-item`s (and are then those items), and absent exactly when it has neither |
| TabsLayout.RenderedParts | packages/vuetify/src/components/VTabs/VTabs.ts:248-262 | The rendered slot children are the tabs, the sliders unless hidden, and the containers if any, otherwise the loose items |
| TabsLayout.RenderKeepsEveryChildIff | packages/vuetify/src/components/VTabs/VTabs.ts:179-262 | Every slot child is rendered exactly once if and only if loose items are not shadowed by an explicit container and no sliders are given while the slider is hidden |

## Left out

- Element construction (`$createElement`, `genBar`), CSS classes, colours
  (`setTextColor`), prop defaults and the props passed to the bar and panel
  widgets: they carry no behaviour beyond the choices modelled.
- Real DOM measurement: `scrollWidth` and `offsetLeft` are integer inputs of
  each step, supplied by the layout engine.
- Timing: the 50 ms mount delay and the 0 ms resize delay are not
  modelled; a timer only records whether the mount hook or `onResize` armed
  it, and any pending timer may fire next. `$nextTick` is a queue flushed by
  an explicit `Tick` event.
- The resize directive, the `$vuetify.application` watchers, the prop
  watchers and the two-way value binding are reduced to the `Resize` and
  `Watched` events; the bar's selection logic, keyboard navigation and
  scrolling are not part of this model, and `selectedItems` is an input.
- What `$refs.items` holds after teardown is framework behaviour; a
  `callSlider` run by a timer after teardown reads `selectedItems` from its
  input like any other.
- TabSlider.MeasurementAfterTeardown: assumes the bar still yields a selected
  element after teardown; what `$refs.items` holds then is framework
  behaviour, and the callback may instead fail at line 136.
- TabSlider.TransitionStartsWithFirstMeasurement: states the inline
  `transition` value only; whether the first move visibly animates depends
  on CSS semantics that are not modelled.
- TabSlider.Styles: a null coordinate is modelled as `None`, not as the
  string `"nullpx"` the template literal produces (which the browser ignores).

=== FILE: tab_nodes.dfy ===
/** Classification of the children of the tabs component's default slot
    (`parseNodes` in VTabs.ts): every child is sorted, in one left-to-right
    pass, into one of four buckets by the name of the component it was
    created from. */
module TabNodes {
  import opened Wrappers

  /** The options of a component vnode. `name` is the registered name of the
      component's constructor; an anonymous component has none. */
  datatype ComponentOptions = ComponentOptions(name: Option<string>)

  /** A child of the default slot. `key` stands for the node's identity;
      `componentOptions` is None for a plain element or a text node. */
  datatype VNode = VNode(key: int, componentOptions: Option<ComponentOptions>)

  /** The four buckets a child can land in. */
  datatype Role = Tab | Slider | Items | Item

  const SliderName: string := "v-tabs-slider"
  const ItemsName: string := "v-tabs-items"
  const ItemName: string := "v-tab-item"
  /** The tab label component. It is deliberately not recognised by the
      classifier and lands in the `Tab` bucket like any unknown name. */
  const TabName: string := "v-tab"

  /** The `switch` on the component name, with the plain-node case first. */
  function RoleOf(n: VNode): (r: Role)
    ensures n.componentOptions.None? ==> r == Tab
    ensures n.componentOptions == Some(ComponentOptions(Some(TabName))) ==> r == Tab
    ensures r == Slider <==> n.componentOptions == Some(ComponentOptions(Some(SliderName)))
    ensures r == Items <==> n.componentOptions == Some(ComponentOptions(Some(ItemsName)))
    ensures r == Item <==> n.componentOptions == Some(ComponentOptions(Some(ItemName)))
  {
    match n.componentOptions
    case None => Tab
    case Some(opts) =>
      if opts.name == Some(SliderName) then Slider
      else if opts.name == Some(ItemsName) then Items
      else if opts.name == Some(ItemName) then Item
      else Tab
  }

  /** The result of `parseNodes`: `{ tab, slider, items, item }`. */
  datatype Buckets = Buckets(tab: seq<VNode>, slider: seq<VNode>, items: seq<VNode>, item: seq<VNode>)
  {
    /** The bucket for role `r`. */
    function Get(r: Role): seq<VNode> {
      match r
      case Tab => tab
      case Slider => slider
      case Items => items
      case Item => item
    }

    /** Number of children held in all four buckets together. */
    function Size(): nat {
      |tab| + |slider| + |items| + |item|
    }

    /** All children held in the four buckets, as a multiset. */
    function Contents(): multiset<VNode> {
      multiset(tab) + multiset(slider) + multiset(items) + multiset(item)
    }
  }

  const NoBuckets: Buckets := Buckets([], [], [], [])

  /** One iteration of the scanning loop: append `n` to its bucket. */
  function Push(b: Buckets, n: VNode): (r: Buckets)
    ensures r.Get(RoleOf(n)) == b.Get(RoleOf(n)) + [n]
    ensures forall q: Role :: q != RoleOf(n) ==> r.Get(q) == b.Get(q)
  {
    match RoleOf(n)
    case Slider => b.(slider := b.slider + [n])
    case Items => b.(items := b.items + [n])
    case Item => b.(item := b.item + [n])
    case Tab => b.(tab := b.tab + [n])
  }

  /** Reference definition, independent of the scan: the children of `s`
      whose role is `r`, in the order they occur in `s`. */
  function Bucket(s: seq<VNode>, r: Role): seq<VNode>
  {
    if |s| == 0 then []
    else Bucket(s[..|s| - 1], r) + (if RoleOf(s[|s| - 1]) == r then [s[|s| - 1]] else [])
  }

  /** The four reference buckets of `s`. */
  function Classified(s: seq<VNode>): Buckets {
    Buckets(Bucket(s, Tab), Bucket(s, Slider), Bucket(s, Items), Bucket(s, Item))
  }

  lemma ClassifiedSnoc(s: seq<VNode>, n: VNode)
    ensures Classified(s + [n]) == Push(Classified(s), n)
  {
    assert (s + [n])[..|s|] == s;
  }

  /** The scanning loop from index `i` on, `acc` holding the buckets of the
      children already visited. */
  function Scan(slot: seq<VNode>, i: nat, acc: Buckets): (b: Buckets)
    requires i <= |slot|
    requires acc == Classified(slot[..i])
    ensures b == Classified(slot)
    decreases |slot| - i
  {
    if i == |slot| then
      assert slot[..i] == slot;
      acc
    else
      assert slot[..i + 1] == slot[..i] + [slot[i]];
      ClassifiedSnoc(slot[..i], slot[i]);
      Scan(slot, i + 1, Push(acc, slot[i]))
  }

  /** `parseNodes`: a missing default slot is read as an empty one. */
  function ParseNodes(slot: Option<seq<VNode>>): (b: Buckets)
    ensures b == Classified(slot.GetOr([]))
    ensures slot.None? ==> b == NoBuckets
  {
    Scan(slot.GetOr([]), 0, NoBuckets)
  }

  /** Indices of the children of `s` whose role is `r`, in increasing order. */
  function Positions(s: seq<VNode>, r: Role): seq<nat>
  {
    if |s| == 0 then []
    else Positions(s[..|s| - 1], r) + (if RoleOf(s[|s| - 1]) == r then [|s| - 1] else [])
  }

  /** Each reference bucket is the subsequence of `s` at `Positions(s, r)`:
      the positions strictly increase (relative order is kept) and hold
      exactly the children of role `r`. */
  lemma {:induction false} BucketPositions(s: seq<VNode>, r: Role)
    ensures |Positions(s, r)| == |Bucket(s, r)|
    ensures forall k :: 0 <= k < |Positions(s, r)| ==>
      Positions(s, r)[k] < |s| && Bucket(s, r)[k] == s[Positions(s, r)[k]]
    ensures forall k, l :: 0 <= k < l < |Positions(s, r)| ==> Positions(s, r)[k] < Positions(s, r)[l]
    ensures forall i :: 0 <= i < |s| ==> (i in Positions(s, r) <==> RoleOf(s[i]) == r)
  {
    if |s| > 0 {
      var init := s[..|s| - 1];
      BucketPositions(init, r);
      forall i | 0 <= i < |init|
        ensures s[i] == init[i]
      {
      }
    }
  }

  /** A child value is in bucket `r` exactly when it occurs in `s` and has
      role `r`. */
  lemma {:induction false} BucketMembers(s: seq<VNode>, r: Role)
    ensures forall x :: x in Bucket(s, r) <==> x in s && RoleOf(x) == r
  {
    if |s| > 0 {
      var init := s[..|s| - 1];
      BucketMembers(init, r);
      assert s == init + [s[|s| - 1]];
    }
  }

  /** The buckets of `s` hold every child exactly once: their sizes add up to
      `|s|` and their contents to `multiset(s)`. */
  lemma {:induction false} ClassifiedIsPartition(s: seq<VNode>)
    ensures Classified(s).Size() == |s|
    ensures Classified(s).Contents() == multiset(s)
  {
    if |s| > 0 {
      var init := s[..|s| - 1];
      ClassifiedIsPartition(init);
      assert s == init + [s[|s| - 1]];
    }
  }

  /** `parseNodes` is a partition of the slot that keeps input order: the
      sizes add up, the contents add up, and every child, by position, is in
      exactly one bucket, the one of its role. */
  lemma ParseNodesPartition(slot: Option<seq<VNode>>)
    ensures ParseNodes(slot).Size() == |slot.GetOr([])|
    ensures ParseNodes(slot).Contents() == multiset(slot.GetOr([]))
    ensures forall i, r :: 0 <= i < |slot.GetOr([])| ==>
      (i in Positions(slot.GetOr([]), r) <==> r == RoleOf(slot.GetOr([])[i]))
  {
    var s := slot.GetOr([]);
    ClassifiedIsPartition(s);
    forall i, r | 0 <= i < |s|
      ensures i in Positions(s, r) <==> r == RoleOf(s[i])
    {
      BucketPositions(s, r);
    }
  }

  /** Classifying a bucket again puts all of it back into the same bucket:
      the classification is stable on its own output. */
  lemma {:induction false} ReclassifyBucket(s: seq<VNode>, r: Role)
    ensures Classified(Bucket(s, r)).Get(r) == Bucket(s, r)
    ensures forall q: Role :: q != r ==> Classified(Bucket(s, r)).Get(q) == []
  {
    if |s| > 0 {
      var init := s[..|s| - 1];
      var last := s[|s| - 1];
      ReclassifyBucket(init, r);
      if RoleOf(last) == r {
        ClassifiedSnoc(Bucket(init, r), last);
      } else {
        assert Bucket(s, r) == Bucket(init, r);
      }
    }
  }
}

=== FILE: tab_slider.dfy ===
/** The slider bookkeeping of the tabs component: the measured position of
    the highlight (`sliderLeft`, `sliderWidth`), the styles derived from it,
    and the deferred work that measures it (`callSlider`, `onResize`, the
    mount delay).

    Deferred work is explicit state: `ticks` is the FIFO of callbacks queued
    with `$nextTick`, `timers` the callbacks queued with `window.setTimeout`.
    The event loop is modelled by the `Tick` event (flush every queued
    `$nextTick` callback) and the `Fire(id)` event (run one pending timer);
    which pending timer fires next is left to the environment. */
module TabSlider {
  import opened Wrappers

  /** What the slider reads of a rendered tab element: `scrollWidth` and
      `offsetLeft`, as integers supplied by the layout engine. */
  datatype Box = Box(scrollWidth: int, offsetLeft: int)

  /** A selected tab instance of the bar; `el` is None when it has no
      rendered element. */
  datatype TabInstance = TabInstance(el: Option<Box>)

  /** What the component reads from outside at one step: its `hideSlider`
      prop and the bar's `selectedItems`. */
  datatype Env = Env(hideSlider: bool, selectedItems: seq<TabInstance>)

  /** A callback queued with `$nextTick`: the deferred slider measurement of
      `callSlider`, or the mount hook's arming of the settle timer. */
  datatype TickJob = Measure | ArmMountTimer

  /** Who armed a timer: the mount hook (50 ms) or `onResize` (0 ms). Every
      timer runs `callSlider` when it fires. */
  datatype Origin = MountDelay | ResizeDelay

  /** A pending `window.setTimeout`, identified by the handle it returned. */
  datatype Timer = Timer(id: nat, origin: Origin)

  datatype State = State(
    sliderLeft: Option<int>,
    sliderWidth: Option<int>,
    ticks: seq<TickJob>,
    timers: seq<Timer>,
    resizeTimeout: nat,   // handle of the last resize timer, 0 before any
    nextTimerId: nat,     // handle the next `setTimeout` returns
    destroyed: bool)

  /** A freshly created component: nothing measured, nothing pending. Timer
      handles are positive, so the initial `resizeTimeout` of 0 names none. */
  const Initial: State := State(None, None, [], [], 0, 1, false)

  /** The slider part of the state. */
  function SliderOf(s: State): (Option<int>, Option<int>) {
    (s.sliderLeft, s.sliderWidth)
  }

  /** The element of the active tab, `selectedItems[0].$el`, if there is one. */
  function ActiveBox(selected: seq<TabInstance>): (b: Option<Box>)
    ensures b.Some? <==> |selected| > 0 && selected[0].el.Some?
    ensures b.Some? ==> b.value == selected[0].el.value
  {
    if |selected| == 0 then None else selected[0].el
  }

  /** The deferred body of `callSlider`: without an active tab element the
      state is left as it is; otherwise the slider takes the element's
      `scrollWidth` as width and `offsetLeft` as left. */
  function MeasureSlider(s: State, selected: seq<TabInstance>): (t: State)
    ensures t == s.(sliderLeft := t.sliderLeft, sliderWidth := t.sliderWidth)
    ensures ActiveBox(selected).None? ==> t == s
    ensures ActiveBox(selected).Some? ==>
      t.sliderWidth == Some(selected[0].el.value.scrollWidth) &&
      t.sliderLeft == Some(selected[0].el.value.offsetLeft)
  {
    match ActiveBox(selected)
    case None => s
    case Some(el) => s.(sliderWidth := Some(el.scrollWidth), sliderLeft := Some(el.offsetLeft))
  }

  /** Measuring twice against the same selection is measuring once. */
  lemma MeasureIdempotent(s: State, selected: seq<TabInstance>)
    ensures MeasureSlider(MeasureSlider(s, selected), selected) == MeasureSlider(s, selected)
  {
  }

  /** `callSlider`: refuses (false, nothing scheduled) when the slider is
      hidden or nothing is selected; otherwise schedules exactly one deferred
      measurement and answers true. Nothing else changes. */
  function CallSlider(s: State, env: Env): (r: (State, bool))
    ensures r.1 <==> !env.hideSlider && |env.selectedItems| > 0
    ensures r.0 == s.(ticks := r.0.ticks)
    ensures s.ticks <= r.0.ticks
    ensures |r.0.ticks| == |s.ticks| + (if r.1 then 1 else 0)
    ensures multiset(r.0.ticks)[Measure] == multiset(s.ticks)[Measure] + (if r.1 then 1 else 0)
  {
    if env.hideSlider || |env.selectedItems| == 0 then (s, false)
    else (s.(ticks := s.ticks + [Measure]), true)
  }

  /** The inline style of the slider wrapper. `left`/`width` are None when
      the coordinate is null (`sliderStyles` then renders the string "nullpx",
      which the browser discards). `transition` is None when no inline value
      is set, so the stylesheet's animated transition applies. */
  datatype SliderStyles = SliderStyles(left: Option<int>, transition: Option<string>, width: Option<int>)

  const NoTransition: string := "none"

  /** `sliderStyles`: the slider is not animated exactly while it has never
      been positioned, that is while `sliderLeft` is null. */
  function Styles(s: State): (st: SliderStyles)
    ensures st.transition == Some(NoTransition) <==> s.sliderLeft.None?
    ensures st.transition.None? <==> s.sliderLeft.Some?
    ensures st.left == s.sliderLeft && st.width == s.sliderWidth
  {
    SliderStyles(s.sliderLeft, if s.sliderLeft.Some? then None else Some(NoTransition), s.sliderWidth)
  }

  /** `window.setTimeout`: queue a timer under a fresh handle. */
  function SetTimeout(s: State, origin: Origin): (t: State)
    ensures t.timers == s.timers + [Timer(s.nextTimerId, origin)]
    ensures t.nextTimerId > s.nextTimerId
    ensures t == s.(timers := t.timers, nextTimerId := t.nextTimerId)
  {
    s.(timers := s.timers + [Timer(s.nextTimerId, origin)], nextTimerId := s.nextTimerId + 1)
  }

  /** `clearTimeout`: drop the pending timer with handle `id`, if any; an
      unknown handle is ignored. The other timers keep their order. */
  function ClearTimeout(timers: seq<Timer>, id: nat): (r: seq<Timer>)
    ensures forall x :: x in r <==> x in timers && x.id != id
    ensures |r| <= |timers|
  {
    if |timers| == 0 then []
    else (if timers[0].id == id then [] else [timers[0]]) + ClearTimeout(timers[1..], id)
  }

  lemma {:induction false} ClearTimeoutKeepsOrder(timers: seq<Timer>, id: nat)
    requires IdsIncreasing(timers)
    ensures IdsIncreasing(ClearTimeout(timers, id))
  {
    if |timers| > 0 {
      var rest := ClearTimeout(timers[1..], id);
      ClearTimeoutKeepsOrder(timers[1..], id);
      forall x | x in rest
        ensures timers[0].id < x.id
      {
        var l :| 0 <= l < |timers[1..]| && timers[1..][l] == x;
        assert timers[l + 1] == x;
      }
    }
  }

  /** Pending timers are listed in order of strictly increasing handle. */
  ghost predicate IdsIncreasing(timers: seq<Timer>) {
    forall k, l :: 0 <= k < l < |timers| ==> timers[k].id < timers[l].id
  }

  /** `onResize`: ignored once the component is destroyed; otherwise the
      pending resize timer, if any, is replaced by a new one. */
  function OnResize(s: State): (t: State)
    ensures s.destroyed ==> t == s
    ensures !s.destroyed ==>
      t.resizeTimeout == s.nextTimerId &&
      t.nextTimerId == s.nextTimerId + 1 &&
      Timer(t.resizeTimeout, ResizeDelay) in t.timers &&
      forall x :: x in t.timers <==> (x in s.timers && x.id != s.resizeTimeout) || x == Timer(t.resizeTimeout, ResizeDelay)
    ensures SliderOf(t) == SliderOf(s) && t.ticks == s.ticks && t.destroyed == s.destroyed
  {
    if s.destroyed then s
    else
      var cleared := s.(timers := ClearTimeout(s.timers, s.resizeTimeout));
      SetTimeout(cleared, ResizeDelay).(resizeTimeout := s.nextTimerId)
  }

  /** Whether a timer with handle `id` is pending. */
  predicate HasTimer(timers: seq<Timer>, id: nat) {
    exists x :: x in timers && x.id == id
  }

  /** The event loop runs the pending timer `id`: it leaves the queue and
      `callSlider` runs. A cleared or already-run handle does nothing. */
  function FireTimer(s: State, id: nat, env: Env): (t: State)
    ensures !HasTimer(s.timers, id) ==> t == s
    ensures HasTimer(s.timers, id) ==>
      !HasTimer(t.timers, id) && |t.timers| < |s.timers| &&
      multiset(t.ticks)[Measure] == multiset(s.ticks)[Measure] + (if !env.hideSlider && |env.selectedItems| > 0 then 1 else 0)
    ensures HasTimer(s.timers, id) ==> forall x :: x in t.timers <==> x in s.timers && x.id != id
    ensures HasTimer(s.timers, id) ==> t.ticks == CallSlider(s, env).0.ticks
    ensures SliderOf(t) == SliderOf(s) && t.destroyed == s.destroyed && t.resizeTimeout == s.resizeTimeout
    ensures t.nextTimerId == s.nextTimerId
  {
    if !HasTimer(s.timers, id) then s
    else
      var x :| x in s.timers && x.id == id;
      assert |ClearTimeout(s.timers, id)| < |s.timers| by {
        ClearTimeoutShrinks(s.timers, id, x);
      }
      CallSlider(s.(timers := ClearTimeout(s.timers, id)), env).0
  }

  lemma {:induction false} ClearTimeoutShrinks(timers: seq<Timer>, id: nat, x: Timer)
    requires x in timers && x.id == id
    ensures |ClearTimeout(timers, id)| < |timers|
  {
    if timers[0] != x {
      ClearTimeoutShrinks(timers[1..], id, x);
    }
  }

  /** One queued `$nextTick` callback: the measurement moves the slider onto
      the active tab element and touches nothing else; the mount callback
      arms one `MountDelay` timer under a fresh handle and touches nothing
      else. */
  function RunTick(s: State, job: TickJob, env: Env): (t: State)
    ensures job == Measure ==> t == s.(sliderLeft := t.sliderLeft, sliderWidth := t.sliderWidth)
    ensures job == Measure && ActiveBox(env.selectedItems).Some? ==>
      t.sliderLeft == Some(ActiveBox(env.selectedItems).value.offsetLeft) &&
      t.sliderWidth == Some(ActiveBox(env.selectedItems).value.scrollWidth)
    ensures job == Measure && ActiveBox(env.selectedItems).None? ==> t == s
    ensures job == ArmMountTimer ==>
      t.timers == s.timers + [Timer(s.nextTimerId, MountDelay)] &&
      t.nextTimerId == s.nextTimerId + 1 &&
      t == s.(timers := t.timers, nextTimerId := t.nextTimerId)
  {
    match job
    case Measure => MeasureSlider(s, env.selectedItems)
    case ArmMountTimer => SetTimeout(s, MountDelay)
  }

  /** Runs `jobs` in order. Measurements read the selection current at the
      flush, so any number of queued measurements act as one: the slider
      ends up as one measurement would leave it, or unchanged when none was
      queued. Each mount callback arms one timer. */
  function RunJobs(s: State, jobs: seq<TickJob>, env: Env): (t: State)
    ensures Measure in jobs ==> SliderOf(t) == SliderOf(MeasureSlider(s, env.selectedItems))
    ensures Measure !in jobs ==> SliderOf(t) == SliderOf(s)
    ensures |t.timers| == |s.timers| + multiset(jobs)[ArmMountTimer]
    ensures forall x :: x in s.timers ==> x in t.timers
    ensures forall x :: x in t.timers && x !in s.timers ==> x.origin == MountDelay && s.nextTimerId <= x.id
    ensures t.nextTimerId == s.nextTimerId + multiset(jobs)[ArmMountTimer]
    ensures t.ticks == s.ticks && t.destroyed == s.destroyed && t.resizeTimeout == s.resizeTimeout
    decreases |jobs|
  {
    if |jobs| == 0 then s
    else
      assert jobs == [jobs[0]] + jobs[1..];
      RunJobs(RunTick(s, jobs[0], env), jobs[1..], env)
  }

  /** Flush of the `$nextTick` queue: every queued callback runs, in order. */
  function FlushTicks(s: State, env: Env): (t: State)
    ensures t.ticks == []
    ensures Measure in s.ticks ==> SliderOf(t) == SliderOf(MeasureSlider(s, env.selectedItems))
    ensures Measure !in s.ticks ==> SliderOf(t) == SliderOf(s)
    ensures t.destroyed == s.destroyed
    ensures forall x :: x in s.timers ==> x in t.timers
  {
    RunJobs(s.(ticks := []), s.ticks, env)
  }

  /** What can happen to the component. `Watched` is a change of any watched
      value that calls `callSlider` (alignment props, `internalLazyValue`,
      `items`); `Resize` is the resize directive or a change of the
      application's left/right insets, both of which call `onResize`. */
  datatype Event = Mount | Watched | Resize | Destroy | Tick | Fire(id: nat)

  /** One event. Only a `$nextTick` flush moves the slider; teardown is
      permanent; handles are never reused. */
  function Step(s: State, env: Env, e: Event): (t: State)
    ensures e != Tick ==> SliderOf(t) == SliderOf(s)
    ensures s.destroyed ==> t.destroyed
    ensures s.nextTimerId <= t.nextTimerId
    ensures e == Mount ==> t.ticks == s.ticks + [ArmMountTimer] && t == s.(ticks := t.ticks)
    ensures e == Watched ==> t == s.(ticks := t.ticks)
    ensures e == Watched ==>
      multiset(t.ticks)[Measure] == multiset(s.ticks)[Measure] + (if !env.hideSlider && |env.selectedItems| > 0 then 1 else 0)
    ensures e == Destroy ==> t.destroyed && t == s.(destroyed := true)
    ensures e == Resize && s.destroyed ==> t == s
    ensures e == Resize && !s.destroyed ==> t.resizeTimeout == s.nextTimerId && Timer(s.nextTimerId, ResizeDelay) in t.timers
    ensures e == Tick ==> t.ticks == [] && forall x :: x in s.timers ==> x in t.timers
    ensures e.Fire? && !HasTimer(s.timers, e.id) ==> t == s
  {
    match e
    case Mount => s.(ticks := s.ticks + [ArmMountTimer])
    case Watched => CallSlider(s, env).0
    case Resize => OnResize(s)
    case Destroy => s.(destroyed := true)
    case Tick => FlushTicks(s, env)
    case Fire(id) => FireTimer(s, id, env)
  }

  /** A run of events, each with the environment it sees. */
  function Run(s: State, trace: seq<(Env, Event)>): State
    decreases |trace|
  {
    if |trace| == 0 then s else Run(Step(s, trace[0].0, trace[0].1), trace[1..])
  }

  /** The invariant of every reachable state: the two slider coordinates are
      set together, handles are fresh and increasing, and the only resize
      timer that can be pending is the one `resizeTimeout` names. */
  ghost predicate Wf(s: State) {
    && (s.sliderLeft.None? <==> s.sliderWidth.None?)
    && 1 <= s.nextTimerId
    && s.resizeTimeout < s.nextTimerId
    && IdsIncreasing(s.timers)
    && (forall x :: x in s.timers ==> 1 <= x.id < s.nextTimerId)
    && (forall x :: x in s.timers ==> (x.origin == ResizeDelay <==> x.id == s.resizeTimeout))
  }

  lemma InitialWf()
    ensures Wf(Initial)
  {
  }

  /** Every event keeps the invariant. */
  lemma StepPreservesWf(s: State, env: Env, e: Event)
    requires Wf(s)
    ensures Wf(Step(s, env, e))
  {
    match e
    case Tick =>
      RunJobsPreservesWf(s.(ticks := []), s.ticks, env);
    case Fire(id) =>
      if HasTimer(s.timers, id) {
        ClearTimeoutKeepsOrder(s.timers, id);
      }
    case Resize =>
      if !s.destroyed {
        var cleared := ClearTimeout(s.timers, s.resizeTimeout);
        ClearTimeoutKeepsOrder(s.timers, s.resizeTimeout);
        var t := OnResize(s);
        assert t.timers == cleared + [Timer(s.nextTimerId, ResizeDelay)];
        assert IdsIncreasing(t.timers) by {
          forall k, l | 0 <= k < l < |t.timers|
            ensures t.timers[k].id < t.timers[l].id
          {
            if l == |t.timers| - 1 {
              assert t.timers[k] in cleared;
            } else {
              assert t.timers[k] == cleared[k] && t.timers[l] == cleared[l];
            }
          }
        }
      }
    case _ =>
  }

  lemma {:induction false} RunJobsPreservesWf(s: State, jobs: seq<TickJob>, env: Env)
    requires Wf(s)
    ensures Wf(RunJobs(s, jobs, env))
    decreases |jobs|
  {
    if |jobs| > 0 {
      var s1 := RunTick(s, jobs[0], env);
      if jobs[0] == ArmMountTimer {
        assert IdsIncreasing(s1.timers) by {
          forall k, l | 0 <= k < l < |s1.timers|
            ensures s1.timers[k].id < s1.timers[l].id
          {
            if l == |s1.timers| - 1 {
              assert s1.timers[k] in s.timers;
            }
          }
        }
      }
      RunJobsPreservesWf(s1, jobs[1..], env);
    }
  }

  /** Every run of events keeps the invariant. */
  lemma {:induction false} RunPreservesWf(s: State, trace: seq<(Env, Event)>)
    requires Wf(s)
    ensures Wf(Run(s, trace))
    decreases |trace|
  {
    if |trace| > 0 {
      StepPreservesWf(s, trace[0].0, trace[0].1);
      RunPreservesWf(Step(s, trace[0].0, trace[0].1), trace[1..]);
    }
  }

  /** In every state reachable from a freshly created component, at most one
      resize timer is pending. */
  lemma ReachableAtMostOneResizeTimer(trace: seq<(Env, Event)>)
    ensures var s := Run(Initial, trace);
      forall k, l ::
        (0 <= k < |s.timers| && 0 <= l < |s.timers| &&
         s.timers[k].origin == ResizeDelay && s.timers[l].origin == ResizeDelay) ==> k == l
  {
    InitialWf();
    RunPreservesWf(Initial, trace);
    AtMostOneResizeTimer(Run(Initial, trace));
  }

  /** At most one resize timer is ever pending. */
  lemma AtMostOneResizeTimer(s: State)
    requires Wf(s)
    ensures forall k, l ::
      (0 <= k < |s.timers| && 0 <= l < |s.timers| &&
       s.timers[k].origin == ResizeDelay && s.timers[l].origin == ResizeDelay) ==> k == l
  {
    forall k, l | 0 <= k < |s.timers| && 0 <= l < |s.timers| &&
      s.timers[k].origin == ResizeDelay && s.timers[l].origin == ResizeDelay
      ensures k == l
    {
      assert s.timers[k] in s.timers && s.timers[l] in s.timers;
    }
  }

  /** A burst of resize signals on a live component leaves exactly one
      pending resize timer, the last one armed, and touches neither the
      slider, the `$nextTick` queue nor the mount timers. */
  lemma {:induction false} ResizeBurst(s: State, trace: seq<(Env, Event)>)
    requires Wf(s) && !s.destroyed
    requires |trace| > 0
    requires forall i :: 0 <= i < |trace| ==> trace[i].1 == Resize
    ensures Wf(Run(s, trace))
    ensures Timer(Run(s, trace).resizeTimeout, ResizeDelay) in Run(s, trace).timers
    ensures forall x :: x in Run(s, trace).timers && x.origin == ResizeDelay ==> x.id == Run(s, trace).resizeTimeout
    ensures forall x: Timer :: x.origin == MountDelay ==> (x in Run(s, trace).timers <==> x in s.timers)
    ensures SliderOf(Run(s, trace)) == SliderOf(s) && Run(s, trace).ticks == s.ticks
    ensures !Run(s, trace).destroyed
    ensures Run(s, trace).resizeTimeout == s.nextTimerId + |trace| - 1
    ensures Run(s, trace).nextTimerId == s.nextTimerId + |trace|
    decreases |trace|
  {
    var s1 := Step(s, trace[0].0, trace[0].1);
    StepPreservesWf(s, trace[0].0, trace[0].1);
    if |trace| > 1 {
      ResizeBurst(s1, trace[1..]);
    }
  }

  /** Resize signals reaching a destroyed component change nothing. */
  lemma {:induction false} DestroyedIgnoresResize(s: State, trace: seq<(Env, Event)>)
    requires s.destroyed
    requires forall i :: 0 <= i < |trace| ==> trace[i].1 == Resize
    ensures Run(s, trace) == s
    decreases |trace|
  {
    if |trace| > 0 {
      DestroyedIgnoresResize(Step(s, trace[0].0, trace[0].1), trace[1..]);
    }
  }

  /** With the slider hidden, no measurement is ever scheduled and the slider
      is never moved, whatever events arrive. */
  lemma {:induction false} HiddenSliderNeverMeasures(s: State, trace: seq<(Env, Event)>)
    requires Measure !in s.ticks
    requires forall i :: 0 <= i < |trace| ==> trace[i].0.hideSlider
    ensures Measure !in Run(s, trace).ticks
    ensures SliderOf(Run(s, trace)) == SliderOf(s)
    decreases |trace|
  {
    if |trace| > 0 {
      var s1 := Step(s, trace[0].0, trace[0].1);
      assert Measure !in s1.ticks;
      HiddenSliderNeverMeasures(s1, trace[1..]);
    }
  }

  /** Once positioned, the slider is never reset to null, so the inline
      `transition` stays unset in every later render. */
  lemma {:induction false} PositionedStaysPositioned(s: State, trace: seq<(Env, Event)>)
    requires s.sliderLeft.Some?
    ensures Run(s, trace).sliderLeft.Some?
    ensures Styles(Run(s, trace)).transition.None?
    decreases |trace|
  {
    if |trace| > 0 {
      PositionedStaysPositioned(Step(s, trace[0].0, trace[0].1), trace[1..]);
    }
  }

  /** Before the first measurement the inline transition is `none`; the
      first successful measurement moves the slider onto the active element
      and from then on the inline transition is unset, so the stylesheet's
      transition applies. */
  lemma TransitionStartsWithFirstMeasurement(s: State, env: Env)
    requires s.sliderLeft.None?
    requires Measure in s.ticks && ActiveBox(env.selectedItems).Some?
    ensures Styles(s).transition == Some(NoTransition)
    ensures Styles(FlushTicks(s, env)).transition.None?
    ensures Styles(FlushTicks(s, env)).left == Some(env.selectedItems[0].el.value.offsetLeft)
    ensures Styles(FlushTicks(s, env)).width == Some(env.selectedItems[0].el.value.scrollWidth)
  {
  }

  /** Firing the pending resize timer schedules one measurement and leaves
      only mount timers pending. */
  lemma FireResizeTimer(t: State, env: Env)
    requires Wf(t) && Timer(t.resizeTimeout, ResizeDelay) in t.timers
    requires !env.hideSlider && |env.selectedItems| > 0
    ensures var u := FireTimer(t, t.resizeTimeout, env);
      && u.ticks == t.ticks + [Measure]
      && (forall y :: y in u.timers ==> y.origin == MountDelay)
      && SliderOf(u) == SliderOf(t)
  {
    var x := Timer(t.resizeTimeout, ResizeDelay);
    assert HasTimer(t.timers, t.resizeTimeout) by {
      assert x in t.timers && x.id == t.resizeTimeout;
    }
  }

  /** Mounting with an empty `$nextTick` queue and then flushing the queue
      arms exactly one 50 ms timer, under the next free handle, and moves
      neither the slider nor the resize handle. */
  lemma {:induction false} MountArmsOneTimer(s: State, env: Env)
    requires s.ticks == []
    ensures var t := Step(Step(s, env, Mount), env, Tick);
      && t.timers == s.timers + [Timer(s.nextTimerId, MountDelay)]
      && t.nextTimerId == s.nextTimerId + 1
      && t.ticks == []
      && SliderOf(t) == SliderOf(s)
      && t.resizeTimeout == s.resizeTimeout
      && t.destroyed == s.destroyed
  {
    var m := Step(s, env, Mount);
    assert m.ticks == [ArmMountTimer];
    var u := RunTick(m.(ticks := []), ArmMountTimer, env);
    assert RunJobs(m.(ticks := []), [ArmMountTimer], env) == RunJobs(u, [], env);
  }

  /** A burst of resize signals followed by the resize timer firing and the
      next flush performs exactly one measurement, which reads the selection
      as it is at the flush. */
  lemma ResizeBurstMeasuresOnce(s: State, burst: seq<(Env, Event)>, fireEnv: Env, flushEnv: Env)
    requires Wf(s) && !s.destroyed && Measure !in s.ticks
    requires |burst| > 0
    requires forall i :: 0 <= i < |burst| ==> burst[i].1 == Resize
    requires !fireEnv.hideSlider && |fireEnv.selectedItems| > 0
    ensures var t := Run(s, burst);
      var u := FireTimer(t, t.resizeTimeout, fireEnv);
      && multiset(u.ticks)[Measure] == 1
      && (forall x :: x in u.timers ==> x.origin == MountDelay)
      && SliderOf(FlushTicks(u, flushEnv)) == SliderOf(MeasureSlider(s, flushEnv.selectedItems))
  {
    ResizeBurst(s, burst);
    var t := Run(s, burst);
    FireResizeTimer(t, fireEnv);
    var u := FireTimer(t, t.resizeTimeout, fireEnv);
    assert Measure in u.ticks;
  }

  /** The deferred body of `callSlider` has no liveness check: a
      measurement still queued when the component is destroyed runs and
      positions the slider. */
  lemma MeasurementAfterTeardown(s: State, env: Env)
    requires Measure in s.ticks && ActiveBox(env.selectedItems).Some?
    ensures var t := Step(Step(s, env, Destroy), env, Tick);
      t.destroyed && t.sliderLeft == Some(env.selectedItems[0].el.value.offsetLeft)
  {
  }
}

=== FILE: tabs_layout.dfy ===
/** The choices the tabs component's render function makes with the
    classified children (`genItems`, `genSlider`, `render`): which panel
    container to render, what goes inside the slider wrapper, and which of
    the slot's children end up in the rendered tree. Element construction,
    CSS classes and colours are not modelled; only the shape of the result. */
module TabsLayout {
  import opened Wrappers
  import opened TabNodes
  import TabSlider

  /** The panel part of the render. `Explicit` passes the slot's own
      `v-tabs-items` containers through; `Wrapped` is one synthesised
      container holding the loose `v-tab-item` children; `NoPanels` is
      `null`. */
  datatype Panels = Explicit(containers: seq<VNode>) | Wrapped(panelItems: seq<VNode>) | NoPanels

  /** `genItems`: explicit containers win and the loose items are then
      dropped; with neither there is nothing; otherwise the loose items are
      wrapped in exactly one container. */
  function GenItems(items: seq<VNode>, item: seq<VNode>): (p: Panels)
    ensures p.Explicit? <==> |items| > 0
    ensures p.Explicit? ==> p.containers == items
    ensures p.NoPanels? <==> |items| == 0 && |item| == 0
    ensures p.Wrapped? <==> |items| == 0 && |item| > 0
    ensures p.Wrapped? ==> p.panelItems == item
  {
    if |items| > 0 then Explicit(items)
    else if |item| == 0 then NoPanels
    else Wrapped(item)
  }

  /** What the slider wrapper holds: one default `v-tabs-slider` with the
      `sliderColor` prop, or the slot's own slider children. */
  datatype SliderContent = DefaultSlider(color: Option<string>) | Overrides(nodes: seq<VNode>)

  /** The `v-tabs__slider-wrapper` element with its inline style. */
  datatype SliderWrapper = SliderWrapper(style: TabSlider.SliderStyles, content: SliderContent)

  /** `genSlider`: nothing when the slider is hidden; otherwise one wrapper
      around either the caller's sliders, unchanged, or a single default
      slider when the caller gave none. */
  function GenSlider(hideSlider: bool, sliderColor: Option<string>, sliders: seq<VNode>,
                     style: TabSlider.SliderStyles): (w: Option<SliderWrapper>)
    ensures w.None? <==> hideSlider
    ensures w.Some? ==> w.value.style == style
    ensures w.Some? && |sliders| == 0 ==> w.value.content == DefaultSlider(sliderColor)
    ensures w.Some? && |sliders| > 0 ==> w.value.content == Overrides(sliders) && |w.value.content.nodes| > 0
  {
    if hideSlider then None
    else
      var content := if |sliders| == 0 then DefaultSlider(sliderColor) else Overrides(sliders);
      Some(SliderWrapper(style, content))
  }

  /** The props the render choices read. */
  datatype Props = Props(hideSlider: bool, sliderColor: Option<string>)

  /** The bar: the slider wrapper (if any) followed by the tab labels. */
  datatype Bar = Bar(slider: Option<SliderWrapper>, tabs: seq<VNode>)

  /** The rendered component: the bar followed by the panels. */
  datatype Tabs = Tabs(bar: Bar, panels: Panels)

  /** `render`: classify the slot, then build the bar and the panels. */
  function Render(slot: Option<seq<VNode>>, props: Props, state: TabSlider.State): (t: Tabs)
    ensures t.bar.tabs == Bucket(slot.GetOr([]), Tab)
    ensures t.bar.slider.None? <==> props.hideSlider
    ensures t.bar.slider.Some? ==> t.bar.slider.value.style == TabSlider.Styles(state)
    ensures t.bar.slider.Some? ==>
      (t.bar.slider.value.style.transition.None? <==> state.sliderLeft.Some?)
    ensures t.panels.Explicit? <==> |Bucket(slot.GetOr([]), Items)| > 0
    ensures t.panels.Wrapped? <==> |Bucket(slot.GetOr([]), Items)| == 0 && |Bucket(slot.GetOr([]), Item)| > 0
    ensures t.panels.NoPanels? <==> Bucket(slot.GetOr([]), Items) == [] && Bucket(slot.GetOr([]), Item) == []
    ensures t.panels.Explicit? ==> t.panels.containers == Bucket(slot.GetOr([]), Items)
    ensures t.panels.Wrapped? ==> t.panels.panelItems == Bucket(slot.GetOr([]), Item)
    ensures t.bar.slider.Some? && |Bucket(slot.GetOr([]), Slider)| > 0 ==>
      t.bar.slider.value.content == Overrides(Bucket(slot.GetOr([]), Slider))
    ensures t.bar.slider.Some? && |Bucket(slot.GetOr([]), Slider)| == 0 ==>
      t.bar.slider.value.content == DefaultSlider(props.sliderColor)
  {
    var b := ParseNodes(slot);
    Tabs(Bar(GenSlider(props.hideSlider, props.sliderColor, b.slider, TabSlider.Styles(state)), b.tab),
         GenItems(b.items, b.item))
  }

  /** The slot's children that appear in a rendered tree. */
  function Rendered(t: Tabs): multiset<VNode> {
    multiset(t.bar.tabs)
    + (match t.bar.slider
       case Some(SliderWrapper(_, Overrides(nodes))) => multiset(nodes)
       case _ => multiset{})
    + (match t.panels
       case Explicit(containers) => multiset(containers)
       case Wrapped(panelItems) => multiset(panelItems)
       case NoPanels => multiset{})
  }

  /** The rendered children, bucket by bucket. */
  lemma RenderedParts(slot: Option<seq<VNode>>, props: Props, state: TabSlider.State)
    ensures var b := Classified(slot.GetOr([]));
      Rendered(Render(slot, props, state)) ==
        multiset(b.tab)
        + (if props.hideSlider then multiset{} else multiset(b.slider))
        + (if |b.items| > 0 then multiset(b.items) else multiset(b.item))
  {
  }

  /** Every child of the slot is rendered exactly once, unless loose
      `v-tab-item`s are shadowed by an explicit `v-tabs-items`, or slider
      children are given while the slider is hidden: only then are children
      dropped. */
  lemma RenderKeepsEveryChildIff(slot: Option<seq<VNode>>, props: Props, state: TabSlider.State)
    ensures var s := slot.GetOr([]);
      Rendered(Render(slot, props, state)) == multiset(s) <==>
        !(|Bucket(s, Items)| > 0 && |Bucket(s, Item)| > 0) &&
        !(props.hideSlider && |Bucket(s, Slider)| > 0)
  {
    var s := slot.GetOr([]);
    var b := Classified(s);
    ClassifiedIsPartition(s);
    RenderedParts(slot, props, state);
    var r := Rendered(Render(slot, props, state));
    var sliderPart := if props.hideSlider then multiset{} else multiset(b.slider);
    var panelPart := if |b.items| > 0 then multiset(b.items) else multiset(b.item);
    var dropped := (if props.hideSlider then |b.slider| else 0) + (if |b.items| > 0 then |b.item| else 0);
    assert |r| + dropped == |s| by {
      assert |r| == |b.tab| + |sliderPart| + |panelPart|;
    }
    if !(|b.items| > 0 && |b.item| > 0) && !(props.hideSlider && |b.slider| > 0) {
      assert sliderPart == multiset(b.slider);
      assert panelPart == multiset(b.items) + multiset(b.item);
    }
  }
}

=== FILE: wrappers.dfy ===
/** The optional-value datatype used for the JavaScript values that may be
    `null` or `undefined` in the tabs component (a missing slot, a missing
    element, an unmeasured slider coordinate). */
module Wrappers {

  datatype Option<+T> = None | Some(value: T) {

    /** JavaScript's `x || fallback` on a possibly missing value: the held
        value when there is one, `fallback` otherwise. */
    function GetOr(fallback: T): T {
      if Some? then value else fallback
    }
  }
}
